=== FILE: README.md ===
# fitbit-api: token freshness policy and credential store, in Dafny

The repository is a Hapi server. It lets a browser user authorize a Fitbit
account over OAuth2 and stores the resulting credential triple in MongoDB.
It then re-exposes some Fitbit endpoints under `/api/v1/users/...`. This
project models the part of `index.js` that holds decisions rather than I/O:

- **Token freshness policy** (`Freshness`). `tokenRefreshCheck` is a strict
  staleness test. `refreshToken` exchanges the stored token pair and upserts
  the result. `getFitbit` either uses the stored token or refreshes first and
  uses the new one. A call is a pure function of the store, the stored user,
  the clock readings and the answers Fitbit would give. It returns the new store,
  the trace of outward calls (exchange, store write, GET) and how its promise
  settles. `Pending` means a promise that never settles.
- **Credential store** (`Credentials`). `updateUser` is a keyed,
  whole-record upsert stamped with the write time. `findOneAndRemove` removes
  by key. The store is a `map<string, Record>` keyed by the `userId` field.
- **Handlers that shape replies** (`Gateway`, `Links`). These are the OAuth
  callback, the user listing with its five `_links` per user, and user
  deletion, which always answers 204.
- **Date defaulting** (`Dates`). `getFitbitDate` returns the `date` query
  parameter when it is truthy; otherwise it builds a date from the clock's
  fields.
- `Text` holds decimal rendering and string splitting. `Remote` holds the
  shapes of Fitbit's answers, which are inputs to the model.

Times are integers in milliseconds. The clock, the Fitbit client library and
MongoDB are not modelled: their results are parameters. These are the clock
readings, the year, month and day fields of `new Date()`, an `ExchangeReply`
for a token exchange, a `FetchReply` for a GET, and the list of documents
`User.find()` returns. A refresh reads the clock twice: `now` for the
staleness test (index.js:360) and `writtenAt` for the stamp `updateUser`
writes after the exchange's round trip (index.js:379). These are two
parameters, with no assumed order between them.

Where the code and its own comments differ, the model follows the code. The
doc comments say `getFitbit` returns "either the data requested from Fitbit
or an error" (index.js:255), and `refreshToken` the new access token or the
error (index.js:332). `RefreshToken` does reject with the error. But the
rejection handler inside `getFitbit` (index.js:273-276) only logs and
returns, so the outer promise never settles. `GetFitbit` therefore ends in
`Pending` on that path.

## Model

| member | source | states |
|---|---|---|
| Freshness.NeedsRefresh | index.js:359-362 | `tokenRefreshCheck`: a record is stale exactly when the current time is past its expiry instant `createdAt + expiresIn`, that is when the elapsed time strictly exceeds the lifetime |
| Freshness.StaleExactlyAfterExpiry | index.js:359-362 | A record needs refreshing exactly when `now` is past `createdAt + expiresIn`; at that instant itself the token still counts as fresh (strict comparison) |
| Freshness.StalenessPersists | index.js:359-362 | Once stale, a record stays stale at every later time |
| Freshness.Settle | index.js:264-272 | A GET answer resolves exactly when it arrived and its body carries no `errors`, and then with that body. Otherwise it rejects with the body's `errors` or with the client's error. It never stays pending |
| Freshness.RefreshToken | index.js:335-348 | Exactly one exchange, with the stored access and refresh tokens. On failure the trace is that exchange alone; on success it is that exchange followed by one write, and nothing else. On success there is one write, under the provider's `user_id`, of the issued triple stamped with the write time, and the promise resolves to the new access token. On failure there is no write, the store is unchanged and the promise rejects with the error. The store always equals the replay of the trace's writes |
| Freshness.GetFitbit | index.js:258-292 | Fresh record (staleness tested at `now`): one GET of the requested URL with the stored access token, no exchange, no write. Stale record: exactly one exchange, first, with the stored pair. After a successful exchange the calls are exactly that exchange, one write of the issued triple stamped with the write time, and a GET of the requested URL with the newly issued token. After a failed exchange the store is unchanged, no GET is made and the promise never settles; this is the only case that never settles. Whenever a GET was made the promise settles as that GET's answer does, so a failed GET rejects. It resolves exactly when one GET was made and its answer has no errors, and then with the answer's body. It rejects only after a GET, with the body's `errors` or the client's error |
| Freshness.GetFitbitStoresOnlyIssuedTokens | index.js:337-340 | After `getFitbit`, every stored record is either untouched or the triple the provider just issued, stamped with the write time |
| Freshness.GetFitbitKeepsWellKeyed | index.js:386-388 | `getFitbit` keeps every record under its own `userId` |
| Freshness.RefreshKeyedByProviderId | index.js:337-339 | The refresh writes under the id in the provider's answer. If that differs from the stored user's id, the stored user's stale record stays as it was |
| Freshness.RefreshThenFresh | index.js:258-263 | A refresh under the user's own id with a non-negative lifetime leaves a record that is fresh from the write time until its new lifetime has passed. A second call in that window makes no exchange and presents the new token |
| Freshness.RefreshScenario | index.js:258-292 | Worked example: with `A1/R1` issued at `t` for 1000 ms, the call at `t+500` uses `A1` and writes nothing. At `t+1500`, with `A2/R2/2000` issued, the call makes one exchange, stores `A2/R2` stamped `t+1500`, and uses `A2` |
| Credentials.Find | index.js:105-106 | A lookup finds a record exactly when the key is stored, and then it is the stored record; in a well-keyed store it carries that id |
| Credentials.UpdateUser | index.js:375-401 | The upsert adds the key if missing. The record then found under it has exactly the given tokens and lifetime, with `createdAt = now`. Every other key keeps its record |
| Credentials.UpdateUserIgnoresPrevious | index.js:376-390 | Whole-record replacement: what the key held before does not affect the stored result |
| Credentials.UpdateUserIdempotent | index.js:386-390 | Repeating the same upsert at the same time changes nothing further |
| Credentials.UpdateUserKeepsWellKeyed | index.js:386-388 | Upserting keeps every record under its own `userId` |
| Credentials.FindAfterUpdate | index.js:386-390 | An upsert does not change what a lookup of any other user finds |
| Credentials.RemoveUser | index.js:126 | Removal drops exactly the given key and keeps every other record |
| Credentials.RemoveUserIdempotent | index.js:126 | Removing twice equals removing once; removing a missing key leaves the store as it was |
| Credentials.RemoveUserKeepsWellKeyed | index.js:126 | Removal keeps every record under its own `userId` |
| Credentials.FindAfterRemove | index.js:126 | After a removal the user is not found and every other user is found as before |
| Gateway.AuthorizeCallback | index.js:44-54 | A successful code exchange upserts the issued triple under the provider's `user_id` and answers 302 to `/api/v1/users/{user_id}`. A failed one writes nothing and never answers |
| Gateway.CallbackRedirectsToSelfLink | index.js:51 | The callback's redirect, on this server's origin, is the user's own `self` GET link |
| Gateway.DeleteUser | index.js:122-130 | Always answers 204, whether or not the id was stored. Afterwards the id is absent and every other record is unchanged |
| Gateway.DeleteUserIdempotent | index.js:126-128 | Deleting twice gives the same store and answer as deleting once |
| Gateway.ListUsers | index.js:60-97 | One entry per document, in the order `User.find()` returned them. Each entry carries that document and that user's links |
| Gateway.ListUsersRoute | index.js:58-99 | The listing answers 200 with the listing of exactly the documents `User.find()` returned, and writes nothing |
| Gateway.ListingCoversStore | index.js:60-97 | When the documents enumerate the store, every stored user is listed with its record and links, nothing else is listed, no user twice, and there are as many entries as stored users |
| Links.UserLinks | index.js:68-94 | Five links per user: self GET, self DELETE, summary GET, activities GET, activities POST, in that order |
| Links.HrefRoundTrip | index.js:71-91 | For an id that is one path segment, parsing a built user URL back gives the same id and resource |
| Links.LinkToRoundTrip | index.js:68-94 | A link built for a user and route asks for exactly that user and route |
| Links.UserLinkRoutes | index.js:68-94 | The i-th link of a user asks for that user through the i-th advertised route |
| Links.AdvertisedRoutesAreServedRoutes | index.js:101-213 | The advertised (method, resource) pairs are exactly the declared routes whose path takes only the user id, each once |
| Links.UserLinksMatchRoutes | index.js:101-213 | Every link of a user asks for a declared route whose path takes only the user id. Every such route is asked for by one of them. No two ask for the same |
| Dates.GetFitbitDateAsWritten | index.js:302-310 | A truthy `date` is returned unchanged. Otherwise the result reads back as (year, `getMonth()` value, day), with the month 0-based. Its length is that of the three shortest decimal renderings plus two dashes, so no field is padded |
| Dates.JanuaryIsMonthZero | index.js:307-309 | On 15 January 2026 with no `date`, the result is `2026-0-15`, whose month field 0 is no calendar month |
| Dates.GetFitbitDate | index.js:302-310 | Corrected: a truthy `date` is returned unchanged. Otherwise the result reads back as (year, calendar month 1-12, day). The dashes sit right after the year and three characters later, and the length is the year's plus six, so month and day are two digits each |
| Dates.DashJoinRoundTrip | index.js:308-309 | Joining three digit strings with `-` and splitting the result gives back the three values |
| Text.DecimalRoundTrip | index.js:308-309 | Reading back the decimal rendering of a natural number gives the number |

## Findings

| source | as written | input that shows it | evidently intended | confidence | as-written member | corrected member |
|---|---|---|---|---|---|---|
| index.js:307-309 | the default date joins `getMonth()`, which counts from 0, and the day, both unpadded | no `date` parameter on 15 January 2026 gives `2026-0-15` | the calendar month, with month and day zero-padded: `2026-01-15`, the `yyyy-MM-dd` form Fitbit's date paths take | high; not executed | Dates.GetFitbitDateAsWritten (exhibited by Dates.JanuaryIsMonthZero) | Dates.GetFitbitDate |

No other member uses either date function, because the handlers that call
`getFitbitDate` are left out (below).

## Left out

- The handlers for `GET /api/v1/users/{id}`, `.../activities/summary`, `GET` and `POST .../activities`, and `DELETE .../activities/{activityId}` (index.js:101-121 and 131-237). Each one redirects when the user is missing and then falls through with a null user. That null throws a TypeError, on `createdAt` or `accessToken`, before any call to Fitbit. The activity DELETE route reads a parameter name the path does not declare. The POST body is hard-coded. Modelling them would mean dressing up those defects. The three GET handlers call `getFitbit`, which `GetFitbit` models. POST and activity DELETE (index.js:207, 230) pass the stored access token straight to the client with no freshness check at all.
- AdvertisedRoutesAreServedRoutes: covers only the declared routes whose path takes the user id alone. `DELETE /api/v1/users/{fitbitId}/activities/{activityId}` (index.js:214-237) also takes an activity id. It is not a resource of the model, and no link advertises it.
- UserLinksMatchRoutes: the same limit. Its "every route is advertised" clause ranges over the routes that take the user id alone, so it excludes the activity DELETE route.
- `GET /` and `GET /fitbit` (index.js:30-43): a fixed greeting, and a redirect to a URL the Fitbit client library builds.
- Server setup, `server.start`, JSON pretty-printing, and every `console.log` (index.js:26-29, 403-405): plumbing with no decisions.
- The mongoose connection and schema (index.js:8-19). The store is a map, each query is the map operation it performs, and `toObject()`'s extra fields (`_id`, `__v`) are not modelled.
- The Fitbit client library: `getAuthorizeUrl`, `getAccessToken`, `refreshAccessToken`, `get`, `post`, `delete`. Their answers are inputs to the model.
- The wall clock (index.js:307, 360, 379). The clock readings `now` and `writtenAt`, and the date fields, are parameters.
- Failed database writes. `updateUser` logs and rejects on a write error (index.js:391-395), but every caller ignores that promise. The model treats every write as done before the next step.
- Promise sequencing and the race between two concurrent requests that both find the token stale and both refresh. These are concurrency concerns. Each call is modelled as one sequential step.
- Freshness.NeedsRefresh: compares `expiresIn` with elapsed milliseconds, as the source's comments say. The model does not check the unit Fitbit actually uses, because that is outside the source.
- Freshness.NeedsRefresh: a document without `createdAt` makes the JavaScript comparison `NaN > x`, so the token counts as fresh. Every modelled record has a time, so that case is absent.
- Freshness.RefreshToken: if the error object has no `context`, the logging line at index.js:344 throws before `reject`, so the promise never settles. The model always rejects. `GetFitbit` is unaffected, since it is `Pending` either way.
- Dates.GetFitbitDateAsWritten: a repeated `date` query parameter arrives as an array, which is truthy and is returned as is. The model takes the parameter as an optional string.

=== FILE: credentials.dfy ===
/**
 The credential store: one record per Fitbit user, keyed by the `userId`
 field that every keyed query of the gateway filters on (`User.findOne({userId})`,
 `User.update({userId}, …, {upsert: true})`, `User.findOneAndRemove({userId})`).
 */
module Credentials {
  import opened Wrappers

  /** One stored document of the `User` schema; times and lifetimes are in milliseconds. */
  datatype Record = Record(
    userId: string,
    accessToken: string,
    refreshToken: string,
    createdAt: int,
    expiresIn: int)

  type Store = map<string, Record>

  /** Every record sits under its own `userId`, so a lookup by key is a lookup by that field. */
  predicate WellKeyed(store: Store) {
    forall k :: k in store ==> store[k].userId == k
  }

  /** `User.findOne({userId})`. */
  function Find(store: Store, userId: string): (r: Option<Record>)
    ensures r.Some? <==> userId in store
    ensures r.Some? ==> r.value == store[userId]
    ensures WellKeyed(store) && r.Some? ==> r.value.userId == userId
  {
    if userId in store then Some(store[userId]) else None
  }

  /**
   `updateUser`: a whole-record upsert under `userId`, stamped with the write
   time `now`. Nothing of the previous record survives.
   */
  function UpdateUser(store: Store, userId: string, accessToken: string, refreshToken: string,
                      expiresIn: int, now: int): (s: Store)
    ensures s.Keys == store.Keys + {userId}
    ensures Find(s, userId) == Some(Record(userId, accessToken, refreshToken, now, expiresIn))
    ensures forall k :: k in store && k != userId ==> s[k] == store[k]
  {
    store[userId := Record(userId, accessToken, refreshToken, now, expiresIn)]
  }

  /** `User.findOneAndRemove({userId})`: removes the entry if there is one. */
  function RemoveUser(store: Store, userId: string): (s: Store)
    ensures s.Keys == store.Keys - {userId}
    ensures forall k :: k in s ==> s[k] == store[k]
  {
    store - {userId}
  }

  /** The upsert replaces wholesale: what was stored before under the key makes no difference. */
  lemma UpdateUserIgnoresPrevious(s1: Store, s2: Store, userId: string, accessToken: string,
                                  refreshToken: string, expiresIn: int, now: int)
    ensures UpdateUser(s1, userId, accessToken, refreshToken, expiresIn, now)[userId]
         == UpdateUser(s2, userId, accessToken, refreshToken, expiresIn, now)[userId]
  {
  }

  /** Repeating the same upsert at the same time changes nothing further. */
  lemma UpdateUserIdempotent(store: Store, userId: string, accessToken: string,
                             refreshToken: string, expiresIn: int, now: int)
    ensures var s := UpdateUser(store, userId, accessToken, refreshToken, expiresIn, now);
            UpdateUser(s, userId, accessToken, refreshToken, expiresIn, now) == s
  {
  }

  lemma UpdateUserKeepsWellKeyed(store: Store, userId: string, accessToken: string,
                                 refreshToken: string, expiresIn: int, now: int)
    requires WellKeyed(store)
    ensures WellKeyed(UpdateUser(store, userId, accessToken, refreshToken, expiresIn, now))
  {
  }

  /** Removing twice leaves the same store as removing once; removing a missing key changes nothing. */
  lemma RemoveUserIdempotent(store: Store, userId: string)
    ensures RemoveUser(RemoveUser(store, userId), userId) == RemoveUser(store, userId)
    ensures userId !in store ==> RemoveUser(store, userId) == store
  {
  }

  lemma RemoveUserKeepsWellKeyed(store: Store, userId: string)
    requires WellKeyed(store)
    ensures WellKeyed(RemoveUser(store, userId))
  {
  }

  /** After a removal the user is not found, and every other user is found exactly as before. */
  lemma FindAfterRemove(store: Store, userId: string, other: string)
    ensures Find(RemoveUser(store, userId), userId) == None
    ensures other != userId ==> Find(RemoveUser(store, userId), other) == Find(store, other)
  {
  }

  /** After an upsert every other user is found exactly as before. */
  lemma FindAfterUpdate(store: Store, userId: string, accessToken: string, refreshToken: string,
                        expiresIn: int, now: int, other: string)
    requires other != userId
    ensures Find(UpdateUser(store, userId, accessToken, refreshToken, expiresIn, now), other)
         == Find(store, other)
  {
  }
}

=== FILE: dates.dfy ===
/**
 `getFitbitDate`: the `date` query parameter when it is truthy, otherwise
 today's date built from the clock's year, month and day fields. The clock
 is not modelled; its fields are parameters (`month` as `Date.getMonth()`
 returns it, 0 for January).
 */
module Dates {
  import opened Wrappers
  import opened Text

  /** JavaScript truthiness of the query parameter: absent (`undefined`) and `""` are falsy. */
  predicate IsTruthy(requestDate: Option<string>) {
    requestDate.Some? && |requestDate.value| > 0
  }

  /** The three numeric fields of a `year-month-day` string, if it has that shape. */
  function ParseDate(s: string): Option<(nat, nat, nat)> {
    match SplitAt(s, '-')
    case None => None
    case Some((y, rest)) =>
      match SplitAt(rest, '-')
      case None => None
      case Some((m, d)) =>
        if |y| > 0 && |m| > 0 && |d| > 0 && AllDigits(y) && AllDigits(m) && AllDigits(d)
        then Some((ParseNat(y), ParseNat(m), ParseNat(d)))
        else None
  }

  /** A calendar month number as people and the Fitbit API write it: 1 to 12. */
  predicate IsCalendarMonth(m: nat) {
    1 <= m <= 12
  }

  /** Joining three digit strings with `-` and parsing the result gives back their values. */
  lemma DashJoinRoundTrip(y: string, m: string, d: string)
    requires |y| > 0 && |m| > 0 && |d| > 0 && AllDigits(y) && AllDigits(m) && AllDigits(d)
    ensures ParseDate(y + "-" + m + "-" + d) == Some((ParseNat(y), ParseNat(m), ParseNat(d)))
  {
    DigitsHaveNo(y, '-');
    DigitsHaveNo(m, '-');
    assert y + "-" + m + "-" + d == y + ['-'] + (m + ['-'] + d);
    SplitAtJoin(y, m + ['-'] + d, '-');
    SplitAtJoin(m, d, '-');
  }

  /**
   `getFitbitDate` as written: `[year, month, day].join('-')`, so the month
   is the 0-based `getMonth()` value without padding.
   */
  function GetFitbitDateAsWritten(requestDate: Option<string>, year: int, month: int, day: int): (r: string)
    ensures IsTruthy(requestDate) ==> r == requestDate.value
    ensures !IsTruthy(requestDate) && 0 <= year && 0 <= month && 0 <= day ==>
              && ParseDate(r) == Some((year, month, day))
              && |r| == |NatToDecimal(year)| + |NatToDecimal(month)| + |NatToDecimal(day)| + 2
  {
    if IsTruthy(requestDate) then requestDate.value
    else
      var r := IntToDecimal(year) + "-" + IntToDecimal(month) + "-" + IntToDecimal(day);
      if 0 <= year && 0 <= month && 0 <= day then
        DecimalRoundTrip(year);
        DecimalRoundTrip(month);
        DecimalRoundTrip(day);
        DashJoinRoundTrip(IntToDecimal(year), IntToDecimal(month), IntToDecimal(day));
        r
      else r
  }

  /** In January the as-written date carries month 0, which is no calendar month. */
  lemma JanuaryIsMonthZero()
    ensures GetFitbitDateAsWritten(None, 2026, 0, 15) == "2026-0-15"
    ensures ParseDate(GetFitbitDateAsWritten(None, 2026, 0, 15)) == Some((2026, 0, 15))
    ensures !IsCalendarMonth(0)
  {
    var year, month, day := JanuaryFields();
    assert GetFitbitDateAsWritten(None, 2026, 0, 15) == year + "-" + month + "-" + day;
  }

  /** The decimal renderings of the fields of 15 January 2026. */
  lemma JanuaryFields() returns (year: string, month: string, day: string)
    ensures year == IntToDecimal(2026) == "2026"
    ensures month == IntToDecimal(0) == "0"
    ensures day == IntToDecimal(15) == "15"
  {
    assert NatToDecimal(2) == "2";
    assert NatToDecimal(20) == "20";
    assert NatToDecimal(202) == "202";
    assert NatToDecimal(1) == "1";
    year, month, day := "2026", "0", "15";
  }

  /** Two-digit, zero-padded rendering of a number below 100. */
  function Pad2(n: nat): (s: string)
    requires n < 100
    ensures |s| == 2 && AllDigits(s) && ParseNat(s) == n
  {
    var s := if n < 10 then "0" + NatToDecimal(n) else NatToDecimal(n);
    DecimalRoundTrip(n);
    if n < 10 then
      assert s[..1] == "0";
      s
    else
      assert n / 10 < 10;
      s
  }

  /**
   `getFitbitDate` as evidently intended: the calendar month (`getMonth() + 1`)
   and the day, both zero-padded, as in `2026-01-15`.
   */
  function GetFitbitDate(requestDate: Option<string>, year: nat, month: nat, day: nat): (r: string)
    requires month < 12 && 1 <= day <= 31
    ensures IsTruthy(requestDate) ==> r == requestDate.value
    ensures !IsTruthy(requestDate) ==>
              && ParseDate(r) == Some((year, month + 1, day))
              && IsCalendarMonth(month + 1)
              && |r| == |NatToDecimal(year)| + 6
              && r[|NatToDecimal(year)|] == '-' && r[|NatToDecimal(year)| + 3] == '-'
  {
    if IsTruthy(requestDate) then requestDate.value
    else
      var r := NatToDecimal(year) + "-" + Pad2(month + 1) + "-" + Pad2(day);
      DecimalRoundTrip(year);
      DashJoinRoundTrip(NatToDecimal(year), Pad2(month + 1), Pad2(day));
      r
  }
}

=== FILE: freshness.dfy ===
/**
 The token freshness policy: `tokenRefreshCheck`, `refreshToken` and
 `getFitbit`. A call is modelled as a pure function of the store, the stored
 user, the clock readings and the answers the provider would give; it returns
 the new store, the calls it issued in order, and how its promise settles.
 The clock is read twice: `now` when staleness is checked, `writtenAt` when
 `updateUser` stamps the refreshed record after the exchange's round trip.
 */
module Freshness {
  import opened Wrappers
  import opened Credentials
  import opened Remote

  /** `tokenRefreshCheck`: the token is stale once the elapsed time strictly exceeds its lifetime. */
  predicate NeedsRefresh(user: Record, now: int): (stale: bool)
    ensures stale <==> now > ExpiresAt(user)
  {
    now - user.createdAt > user.expiresIn
  }

  /** One outward call: a refresh exchange, a store write, or a GET against Fitbit. */
  datatype Effect =
    | Exchange(accessToken: string, refreshToken: string)
    | Write(key: string, record: Record)
    | Fetch(url: string, token: string)

  /** How a promise ends; `Pending` is a promise that never settles. */
  datatype Settlement<+T> = Resolved(value: T) | Rejected(error: string) | Pending

  datatype Run<+T> = Run(store: Store, effects: seq<Effect>, outcome: Settlement<T>)

  /** Number of refresh exchanges in a trace. */
  function ExchangeCount(effects: seq<Effect>): nat {
    if |effects| == 0 then 0
    else (if effects[0].Exchange? then 1 else 0) + ExchangeCount(effects[1..])
  }

  /** Number of store writes in a trace. */
  function WriteCount(effects: seq<Effect>): nat {
    if |effects| == 0 then 0
    else (if effects[0].Write? then 1 else 0) + WriteCount(effects[1..])
  }

  /** The tokens presented to Fitbit's GET endpoint, in order. */
  function FetchTokens(effects: seq<Effect>): seq<string> {
    if |effects| == 0 then []
    else (if effects[0].Fetch? then [effects[0].token] else []) + FetchTokens(effects[1..])
  }

  /** The store obtained by performing the writes of a trace, in order. */
  function Replay(store: Store, effects: seq<Effect>): Store
    decreases |effects|
  {
    if |effects| == 0 then store
    else Replay(if effects[0].Write? then store[effects[0].key := effects[0].record] else store,
                effects[1..])
  }

  /** The record `updateUser` writes for a grant, stamped with the clock reading `writtenAt`. */
  function Issued(grant: Grant, writtenAt: int): Record {
    Record(grant.userId, grant.accessToken, grant.refreshToken, writtenAt, grant.expiresIn)
  }

  /** The answer of `client.get` as `getFitbit` passes it on: a body carrying `errors` rejects. */
  function Settle(reply: FetchReply): (s: Settlement<Body>)
    ensures s.Resolved? <==> reply.Fetched? && reply.body.errors.None?
    ensures s.Pending? == false
    ensures s.Resolved? ==> s.value == reply.body
    ensures s.Rejected? ==>
              || (reply.Fetched? && reply.body.errors.Some? && s.error == reply.body.errors.value)
              || (reply.FetchFailed? && s.error == reply.error)
  {
    match reply
    case Fetched(body) => if body.errors.Some? then Rejected(body.errors.value) else Resolved(body)
    case FetchFailed(e) => Rejected(e)
  }

  /**
   `refreshToken`: one exchange with the stored token pair; on success the new
   triple is upserted under the user id the provider names, stamped with the
   clock reading `writtenAt`, and the promise resolves to the new access
   token; on failure nothing is written.
   */
  function RefreshToken(store: Store, user: Record, writtenAt: int, reply: ExchangeReply): (r: Run<string>)
    ensures ExchangeCount(r.effects) == 1
    ensures r.effects[0] == Exchange(user.accessToken, user.refreshToken)
    ensures r.store == Replay(store, r.effects)
    ensures reply.Denied? ==> r.store == store && WriteCount(r.effects) == 0 && r.outcome == Rejected(reply.error)
    ensures reply.Denied? ==> r.effects == [Exchange(user.accessToken, user.refreshToken)]
    ensures reply.Granted? ==>
              r.effects == [Exchange(user.accessToken, user.refreshToken),
                            Write(reply.grant.userId, Issued(reply.grant, writtenAt))]
    ensures reply.Granted? ==>
              && r.outcome == Resolved(reply.grant.accessToken)
              && WriteCount(r.effects) == 1
              && Find(r.store, reply.grant.userId) == Some(Issued(reply.grant, writtenAt))
  {
    var ask := Exchange(user.accessToken, user.refreshToken);
    match reply
    case Denied(e) =>
      Run(store, [ask], Rejected(e))
    case Granted(g) =>
      var r := Run(UpdateUser(store, g.userId, g.accessToken, g.refreshToken, g.expiresIn, writtenAt),
                   [ask, Write(g.userId, Issued(g, writtenAt))],
                   Resolved(g.accessToken));
      TraceOfTwo(store, ask, Write(g.userId, Issued(g, writtenAt)));
      r
  }

  /**
   `getFitbit`: a fresh token is used as stored; a stale one is refreshed
   first and the GET uses the token the refresh returned. When the refresh
   fails the outer promise is never settled (its error handler only logs).
   */
  function GetFitbit(store: Store, user: Record, url: string, now: int, writtenAt: int,
                     exchange: ExchangeReply, fetch: FetchReply): (r: Run<Body>)
    ensures r.store == Replay(store, r.effects)
    ensures ExchangeCount(r.effects) == (if NeedsRefresh(user, now) then 1 else 0)
    ensures WriteCount(r.effects) == (if NeedsRefresh(user, now) && exchange.Granted? then 1 else 0)
    ensures !NeedsRefresh(user, now) ==> r.store == store && r.effects == [Fetch(url, user.accessToken)]
    ensures NeedsRefresh(user, now) ==> r.effects[0] == Exchange(user.accessToken, user.refreshToken)
    ensures NeedsRefresh(user, now) && exchange.Granted? ==>
              r.effects == [Exchange(user.accessToken, user.refreshToken),
                               Write(exchange.grant.userId, Issued(exchange.grant, writtenAt)),
                               Fetch(url, exchange.grant.accessToken)]
    ensures NeedsRefresh(user, now) && exchange.Denied? ==>
              r.store == store && FetchTokens(r.effects) == [] && r.outcome == Pending
    ensures r.outcome.Pending? <==> NeedsRefresh(user, now) && exchange.Denied?
    ensures |FetchTokens(r.effects)| == 1 ==> r.outcome == Settle(fetch)
    ensures r.outcome.Resolved? <==> |FetchTokens(r.effects)| == 1 && fetch.Fetched? && fetch.body.errors.None?
    ensures r.outcome.Resolved? ==> r.outcome.value == fetch.body
    ensures r.outcome.Rejected? ==>
              && |FetchTokens(r.effects)| == 1
              && (|| (fetch.Fetched? && fetch.body.errors.Some? && r.outcome.error == fetch.body.errors.value)
                  || (fetch.FetchFailed? && r.outcome.error == fetch.error))
  {
    if NeedsRefresh(user, now) then
      var refreshed := RefreshToken(store, user, writtenAt, exchange);
      if refreshed.outcome.Resolved? then
        var token := refreshed.outcome.value;
        var r := Run(refreshed.store, refreshed.effects + [Fetch(url, token)], Settle(fetch));
        FetchAppend(refreshed.effects, token, url);
        ExchangeAppend(refreshed.effects, Fetch(url, token));
        WriteAppend(refreshed.effects, Fetch(url, token));
        ReplayAppendNonWrite(store, refreshed.effects, Fetch(url, token));
        TraceOfTwo(store, refreshed.effects[0], refreshed.effects[1]);
        r
      else
        assert FetchTokens(refreshed.effects) == [];
        Run(refreshed.store, refreshed.effects, Pending)
    else
      Run(store, [Fetch(url, user.accessToken)], Settle(fetch))
  }

  /** The observations of a two-call trace, one call at a time. */
  lemma TraceOfTwo(store: Store, e1: Effect, e2: Effect)
    ensures ExchangeCount([e1, e2]) == (if e1.Exchange? then 1 else 0) + (if e2.Exchange? then 1 else 0)
    ensures WriteCount([e1, e2]) == (if e1.Write? then 1 else 0) + (if e2.Write? then 1 else 0)
    ensures FetchTokens([e1, e2]) == (if e1.Fetch? then [e1.token] else []) + (if e2.Fetch? then [e2.token] else [])
    ensures Replay(store, [e1, e2]) == Replay(Replay(store, [e1]), [e2])
  {
    assert [e1, e2][1..] == [e2];
    assert [e2][1..] == [];
    assert ExchangeCount([e2]) == (if e2.Exchange? then 1 else 0) + ExchangeCount([]);
    assert WriteCount([e2]) == (if e2.Write? then 1 else 0) + WriteCount([]);
    assert FetchTokens([e2]) == (if e2.Fetch? then [e2.token] else []) + FetchTokens([]);
  }

  lemma {:induction false} FetchAppend(effects: seq<Effect>, token: string, url: string)
    ensures FetchTokens(effects + [Fetch(url, token)]) == FetchTokens(effects) + [token]
  {
    if |effects| > 0 {
      assert (effects + [Fetch(url, token)])[1..] == effects[1..] + [Fetch(url, token)];
      FetchAppend(effects[1..], token, url);
    }
  }

  lemma {:induction false} ExchangeAppend(effects: seq<Effect>, e: Effect)
    ensures ExchangeCount(effects + [e]) == ExchangeCount(effects) + (if e.Exchange? then 1 else 0)
  {
    if |effects| > 0 {
      assert (effects + [e])[1..] == effects[1..] + [e];
      ExchangeAppend(effects[1..], e);
    }
  }

  lemma {:induction false} WriteAppend(effects: seq<Effect>, e: Effect)
    ensures WriteCount(effects + [e]) == WriteCount(effects) + (if e.Write? then 1 else 0)
  {
    if |effects| > 0 {
      assert (effects + [e])[1..] == effects[1..] + [e];
      WriteAppend(effects[1..], e);
    }
  }

  lemma {:induction false} ReplayAppendNonWrite(store: Store, effects: seq<Effect>, e: Effect)
    requires !e.Write?
    ensures Replay(store, effects + [e]) == Replay(store, effects)
    decreases |effects|
  {
    if |effects| > 0 {
      assert (effects + [e])[1..] == effects[1..] + [e];
      var next := if effects[0].Write? then store[effects[0].key := effects[0].record] else store;
      ReplayAppendNonWrite(next, effects[1..], e);
    }
  }

  /** The last instant at which a record's access token is still used as stored. */
  function ExpiresAt(user: Record): int {
    user.createdAt + user.expiresIn
  }

  /** Stale exactly after the expiry instant; the instant itself still counts as fresh. */
  lemma StaleExactlyAfterExpiry(user: Record, now: int)
    ensures NeedsRefresh(user, now) <==> now > ExpiresAt(user)
    ensures now == ExpiresAt(user) ==> !NeedsRefresh(user, now)
  {
  }

  /** Once stale, a record stays stale as time goes on. */
  lemma StalenessPersists(user: Record, now: int, later: int)
    requires NeedsRefresh(user, now) && now <= later
    ensures NeedsRefresh(user, later)
  {
  }

  /**
   Every record after a `getFitbit` call is either untouched or the triple the
   provider just issued, stamped with `writtenAt`: no token is ever synthesised.
   */
  lemma GetFitbitStoresOnlyIssuedTokens(store: Store, user: Record, url: string, now: int, writtenAt: int,
                                        exchange: ExchangeReply, fetch: FetchReply, k: string)
    requires k in GetFitbit(store, user, url, now, writtenAt, exchange, fetch).store
    ensures var s := GetFitbit(store, user, url, now, writtenAt, exchange, fetch).store;
            || (k in store && s[k] == store[k])
            || (NeedsRefresh(user, now) && exchange.Granted? && k == exchange.grant.userId
                && s[k] == Issued(exchange.grant, writtenAt))
  {
  }

  lemma GetFitbitKeepsWellKeyed(store: Store, user: Record, url: string, now: int, writtenAt: int,
                                exchange: ExchangeReply, fetch: FetchReply)
    requires WellKeyed(store)
    ensures WellKeyed(GetFitbit(store, user, url, now, writtenAt, exchange, fetch).store)
  {
  }

  /**
   The refresh writes under the id the provider returns. When that id is not
   the stored user's, the stored user's record is left as it was, still stale.
   */
  lemma RefreshKeyedByProviderId(store: Store, user: Record, url: string, now: int, writtenAt: int,
                                 g: Grant, fetch: FetchReply)
    requires NeedsRefresh(user, now)
    requires user.userId in store && store[user.userId] == user
    requires g.userId != user.userId
    ensures var s := GetFitbit(store, user, url, now, writtenAt, Granted(g), fetch).store;
            s[user.userId] == user && s[g.userId] == Issued(g, writtenAt)
  {
  }

  /**
   A stale record refreshed under its own id, with a non-negative lifetime,
   is fresh from the write until its new lifetime has passed: a request in
   that window issues no exchange and presents the newly issued access token.
   */
  lemma RefreshThenFresh(store: Store, user: Record, url: string, url2: string, now: int, writtenAt: int,
                         later: int, g: Grant, exchange2: ExchangeReply, fetch: FetchReply, fetch2: FetchReply)
    requires NeedsRefresh(user, now)
    requires g.userId == user.userId && g.expiresIn >= 0
    requires writtenAt <= later <= writtenAt + g.expiresIn
    ensures var s := GetFitbit(store, user, url, now, writtenAt, Granted(g), fetch).store;
            && user.userId in s
            && !NeedsRefresh(s[user.userId], later)
            && GetFitbit(s, s[user.userId], url2, later, later, exchange2, fetch2).effects
               == [Fetch(url2, g.accessToken)]
  {
  }

  /**
   The worked example: a record issued at `t` with a 1000 ms lifetime is used
   as stored at `t + 500`, and at `t + 1500` is exchanged for A2/R2 with a
   2000 ms lifetime, which is stored stamped with the write time and used for the GET.
   */
  lemma RefreshScenario(t: int, fetch: FetchReply)
    ensures var user := Record("u", "A1", "R1", t, 1000);
            var store := map["u" := user];
            var grant := Grant("u", "A2", "R2", 2000);
            var early := GetFitbit(store, user, "/profile.json", t + 500, t + 500, Granted(grant), fetch);
            var late := GetFitbit(store, user, "/profile.json", t + 1500, t + 1500, Granted(grant), fetch);
            && early.store == store
            && FetchTokens(early.effects) == ["A1"]
            && WriteCount(early.effects) == 0
            && late.store == map["u" := Record("u", "A2", "R2", t + 1500, 2000)]
            && FetchTokens(late.effects) == ["A2"]
            && ExchangeCount(late.effects) == 1
  {
    var user := Record("u", "A1", "R1", t, 1000);
    var early := GetFitbit(map["u" := user], user, "/profile.json", t + 500, t + 500,
                           Granted(Grant("u", "A2", "R2", 2000)), fetch);
    assert early.effects == [Fetch("/profile.json", "A1")];
    assert early.effects[1..] == [];
    var late := GetFitbit(map["u" := user], user, "/profile.json", t + 1500, t + 1500,
                          Granted(Grant("u", "A2", "R2", 2000)), fetch);
    TraceOfTwo(map["u" := user], late.effects[1], late.effects[2]);
    assert late.effects[1..] == [late.effects[1], late.effects[2]];
  }
}

=== FILE: gateway.dfy ===
/**
 The route handlers whose behaviour does not depend on the Fitbit GET
 endpoints: the authorization callback, the user listing and user removal.
 */
module Gateway {
  import opened Credentials
  import opened Remote
  import opened Links

  /** What a handler answers; `NoReply` is a request that is never answered. */
  datatype Reply = Redirect(location: string) | NoContent | Listing(entries: seq<UserEntry>) | NoReply

  /** A stored user as the listing shows it: the document plus its `_links`. */
  datatype UserEntry = UserEntry(user: Record, links: seq<Link>)

  datatype Handled = Handled(store: Store, reply: Reply)

  /** The HTTP status of a reply (`NoReply` has none; 0 stands for that). */
  function Status(reply: Reply): int {
    match reply
    case Redirect(_) => 302
    case NoContent => 204
    case Listing(_) => 200
    case NoReply => 0
  }

  /** The local path of a user's profile, where the authorization callback redirects. */
  function UserPath(userId: string): string {
    "/api/v1/users/" + userId
  }

  /**
   `GET /fitbit_oauth_callback`: the code exchange's triple is upserted under
   the user id the provider returns, and the browser is sent to that user's
   profile. A failed exchange has no handler, so nothing is written and the
   request is never answered.
   */
  function AuthorizeCallback(store: Store, now: int, reply: ExchangeReply): (h: Handled)
    ensures reply.Denied? ==> h.store == store && h.reply == NoReply
    ensures reply.Granted? ==>
              && h.store == UpdateUser(store, reply.grant.userId, reply.grant.accessToken,
                                       reply.grant.refreshToken, reply.grant.expiresIn, now)
              && Status(h.reply) == 302
              && h.reply.location == UserPath(reply.grant.userId)
  {
    match reply
    case Denied(_) => Handled(store, NoReply)
    case Granted(g) =>
      Handled(UpdateUser(store, g.userId, g.accessToken, g.refreshToken, g.expiresIn, now),
              Redirect(UserPath(g.userId)))
  }

  /** The callback's redirect is the path of the user's own `self` link on this server. */
  lemma CallbackRedirectsToSelfLink(store: Store, now: int, g: Grant)
    ensures var h := AuthorizeCallback(store, now, Granted(g));
            "http://localhost:8080" + h.reply.location == UserLinks(g.userId)[0].href
  {
    assert "http://localhost:8080" + "/api/v1/users/" == UsersBase;
  }

  /** `DELETE /api/v1/users/{fitbitId}`: removes that user, if stored, and answers 204 either way. */
  function DeleteUser(store: Store, userId: string): (h: Handled)
    ensures Status(h.reply) == 204
    ensures userId !in h.store && h.store.Keys == store.Keys - {userId}
    ensures forall k :: k in h.store ==> h.store[k] == store[k]
  {
    Handled(RemoveUser(store, userId), NoContent)
  }

  /** Deleting twice leaves the same store, and the same answer, as deleting once. */
  lemma DeleteUserIdempotent(store: Store, userId: string)
    ensures DeleteUser(DeleteUser(store, userId).store, userId) == DeleteUser(store, userId)
  {
    RemoveUserIdempotent(store, userId);
  }

  /** `GET /api/v1/users`: each document `User.find()` returned, in that order, with its links. */
  function ListUsers(docs: seq<Record>): (entries: seq<UserEntry>)
    ensures |entries| == |docs|
    ensures forall i :: 0 <= i < |docs| ==>
              entries[i].user == docs[i] && entries[i].links == UserLinks(docs[i].userId)
  {
    if |docs| == 0 then [] else [UserEntry(docs[0], UserLinks(docs[0].userId))] + ListUsers(docs[1..])
  }

  /** `docs` lists every record of the store exactly once. */
  predicate Enumerates(docs: seq<Record>, store: Store) {
    && (forall i :: 0 <= i < |docs| ==> docs[i].userId in store && store[docs[i].userId] == docs[i])
    && (forall k :: k in store ==> exists i :: 0 <= i < |docs| && docs[i].userId == k)
    && (forall i, j :: 0 <= i < j < |docs| ==> docs[i].userId != docs[j].userId)
  }

  /** The listing handler: every answer is 200 with the listing of the documents. */
  function ListUsersRoute(store: Store, docs: seq<Record>): (h: Handled)
    ensures h.store == store && Status(h.reply) == 200
    ensures h.reply == Listing(ListUsers(docs))
  {
    Handled(store, Listing(ListUsers(docs)))
  }

  /** The entry at each position shows the stored user whose document sits there. */
  lemma ListedAtPosition(store: Store, docs: seq<Record>, i: int)
    requires Enumerates(docs, store) && 0 <= i < |docs|
    ensures i < |ListUsers(docs)| && ListedAs(ListUsers(docs)[i], docs[i].userId, store)
  {
  }

  /**
   When `User.find()` enumerates the store, the listing holds one entry for
   each stored user and nothing else, each with that user's record and links.
   */
  lemma ListingCoversStore(store: Store, docs: seq<Record>)
    requires Enumerates(docs, store)
    ensures forall k :: k in store ==> exists i :: 0 <= i < |ListUsers(docs)| && ListedAs(ListUsers(docs)[i], k, store)
    ensures forall i :: 0 <= i < |ListUsers(docs)| ==> ListedAs(ListUsers(docs)[i], ListUsers(docs)[i].user.userId, store)
    ensures forall i, j :: 0 <= i < j < |ListUsers(docs)| ==>
              ListUsers(docs)[i].user.userId != ListUsers(docs)[j].user.userId
    ensures |ListUsers(docs)| == |store|
  {
    forall k | k in store
      ensures exists i :: 0 <= i < |ListUsers(docs)| && ListedAs(ListUsers(docs)[i], k, store)
    {
      var i := StoredUserPosition(store, docs, k);
    }
    forall i | 0 <= i < |ListUsers(docs)|
      ensures ListedAs(ListUsers(docs)[i], ListUsers(docs)[i].user.userId, store)
    {
      ListedAtPosition(store, docs, i);
    }
    DistinctKeysCount(docs, store);
  }

  /** The position at which a stored user is listed. */
  lemma StoredUserPosition(store: Store, docs: seq<Record>, k: string) returns (i: int)
    requires Enumerates(docs, store) && k in store
    ensures 0 <= i < |ListUsers(docs)| && ListedAs(ListUsers(docs)[i], k, store)
  {
    i :| 0 <= i < |docs| && docs[i].userId == k;
    ListedAtPosition(store, docs, i);
  }

  /** `entry` shows the stored user `k`: its record, under its key, with its links. */
  predicate ListedAs(entry: UserEntry, k: string, store: Store) {
    k in store && entry.user == store[k] && entry.links == UserLinks(k)
  }

  /** A duplicate-free list of keys covering exactly the store has the store's size. */
  lemma DistinctKeysCount(docs: seq<Record>, store: Store)
    requires Enumerates(docs, store)
    ensures |docs| == |store|
  {
    var ids := set i | 0 <= i < |docs| :: docs[i].userId;
    assert ids == store.Keys by {
      forall k | k in store ensures k in ids {
        var i :| 0 <= i < |docs| && docs[i].userId == k;
      }
    }
    DistinctImageSize(docs);
  }

  /** Distinct user ids at distinct positions: the set of ids is as large as the list. */
  lemma {:induction false} DistinctImageSize(docs: seq<Record>)
    requires forall i, j :: 0 <= i < j < |docs| ==> docs[i].userId != docs[j].userId
    ensures |set i | 0 <= i < |docs| :: docs[i].userId| == |docs|
  {
    if |docs| > 0 {
      var rest := docs[1..];
      DistinctImageSize(rest);
      var ids := set i | 0 <= i < |docs| :: docs[i].userId;
      var restIds := set i | 0 <= i < |rest| :: rest[i].userId;
      assert ids == restIds + {docs[0].userId} by {
        forall k | k in ids ensures k in restIds + {docs[0].userId} {
          var i :| 0 <= i < |docs| && docs[i].userId == k;
          if i > 0 { assert rest[i - 1].userId == k; }
        }
      }
      assert docs[0].userId !in restIds by {
        forall i | 0 <= i < |rest| ensures rest[i].userId != docs[0].userId {
          assert rest[i] == docs[i + 1];
        }
      }
    }
  }
}

=== FILE: links.dfy ===
/**
 The hypermedia links attached to each user in `GET /api/v1/users`, and the
 user routes the server declares, so that every advertised link can be
 checked against a route that serves it.
 */
module Links {
  import opened Wrappers
  import opened Text

  /** The absolute prefix of every user URL the listing advertises. */
  const UsersBase: string := "http://localhost:8080/api/v1/users/"

  /** The HTTP methods the links name (`'GET'`, `'DELETE'`, `'POST'` in the listing). */
  datatype Verb = Get | Delete | Post

  datatype Link = Link(rel: string, href: string, verb: Verb)

  /** The three resources a user URL can name with the user id alone. */
  datatype Resource = Profile | Summary | Activities

  function Suffix(res: Resource): string {
    match res
    case Profile => ""
    case Summary => "/activities/summary"
    case Activities => "/activities"
  }

  function Href(userId: string, res: Resource): string {
    UsersBase + userId + Suffix(res)
  }

  /** The relation name a link to a resource carries. */
  function Rel(res: Resource): string {
    match res
    case Profile => "self"
    case Summary => "summary"
    case Activities => "activities"
  }

  /** The link that advertises `verb` on one of a user's resources. */
  function LinkTo(userId: string, verb: Verb, res: Resource): Link {
    Link(Rel(res), Href(userId, res), verb)
  }

  /** The routes the listing advertises for each user, in link order. */
  const AdvertisedRoutes: seq<(Verb, Resource)> :=
    [(Get, Profile), (Delete, Profile), (Get, Summary), (Get, Activities), (Post, Activities)]

  /** The five links of one user, in the order the listing gives them. */
  function UserLinks(userId: string): (links: seq<Link>)
    ensures |links| == |AdvertisedRoutes|
    ensures forall i :: 0 <= i < |links| ==>
              links[i].verb == AdvertisedRoutes[i].0 && links[i].rel == Rel(AdvertisedRoutes[i].1)
  {
    [ LinkTo(userId, Get, Profile),
      LinkTo(userId, Delete, Profile),
      LinkTo(userId, Get, Summary),
      LinkTo(userId, Get, Activities),
      LinkTo(userId, Post, Activities) ]
  }

  /** A value Hapi can bind to a `{fitbitId}` path parameter: one non-empty segment. */
  predicate IsPathSegment(s: string) {
    |s| > 0 && '/' !in s
  }

  /** Recovers the user id and resource from an absolute user URL, if it is one. */
  function ParseHref(href: string): Option<(string, Resource)> {
    if |href| < |UsersBase| || href[..|UsersBase|] != UsersBase then None
    else
      var rest := href[|UsersBase|..];
      match SplitAt(rest, '/')
      case None =>
        if |rest| > 0 then Some((rest, Profile)) else None
      case Some((id, tail)) =>
        if |id| == 0 then None
        else if tail == "activities/summary" then Some((id, Summary))
        else if tail == "activities" then Some((id, Activities))
        else None
  }

  /** Building a user URL and parsing it back gives the same id and resource. */
  lemma HrefRoundTrip(userId: string, res: Resource)
    requires IsPathSegment(userId)
    ensures ParseHref(Href(userId, res)) == Some((userId, res))
  {
    var href := Href(userId, res);
    assert href[..|UsersBase|] == UsersBase;
    assert href[|UsersBase|..] == userId + Suffix(res);
    match res
    case Profile =>
      assert href == UsersBase + userId;
      assert href[|UsersBase|..] == userId;
    case Summary =>
      assert userId + Suffix(res) == userId + ['/'] + "activities/summary";
      SplitAtJoin(userId, "activities/summary", '/');
    case Activities =>
      assert userId + Suffix(res) == userId + ['/'] + "activities";
      SplitAtJoin(userId, "activities", '/');
  }

  /**
   The routes of the route table whose path takes only the user id. The
   table's one other per-user route, `DELETE .../activities/{activityId}`,
   also takes an activity id, and no link advertises it.
   */
  predicate IsUserRoute(verb: Verb, res: Resource) {
    match res
    case Profile => verb == Get || verb == Delete
    case Summary => verb == Get
    case Activities => verb == Get || verb == Post
  }

  /** The user and the (verb, resource) route a link asks for, if its URL is a user URL. */
  function RouteOf(l: Link): Option<(string, (Verb, Resource))> {
    match ParseHref(l.href)
    case None => None
    case Some((id, res)) => Some((id, (l.verb, res)))
  }

  /** A link built for a user and route asks for exactly that user and route. */
  lemma LinkToRoundTrip(userId: string, verb: Verb, res: Resource)
    requires IsPathSegment(userId)
    ensures RouteOf(LinkTo(userId, verb, res)) == Some((userId, (verb, res)))
  {
    HrefRoundTrip(userId, res);
  }

  /** The advertised routes are exactly the declared routes that take only the user id, each once. */
  lemma AdvertisedRoutesAreServedRoutes()
    ensures forall i :: 0 <= i < |AdvertisedRoutes| ==> IsUserRoute(AdvertisedRoutes[i].0, AdvertisedRoutes[i].1)
    ensures forall verb, res :: IsUserRoute(verb, res) ==> (verb, res) in AdvertisedRoutes
    ensures forall i, j :: 0 <= i < j < |AdvertisedRoutes| ==> AdvertisedRoutes[i] != AdvertisedRoutes[j]
  {
  }

  /** Each link of a user asks for that user through the advertised route at its position. */
  lemma UserLinkRoutes(userId: string)
    requires IsPathSegment(userId)
    ensures forall i :: 0 <= i < |UserLinks(userId)| ==>
              RouteOf(UserLinks(userId)[i]) == Some((userId, AdvertisedRoutes[i]))
  {
    var links := UserLinks(userId);
    forall i | 0 <= i < |links|
      ensures RouteOf(links[i]) == Some((userId, AdvertisedRoutes[i]))
    {
      assert links[i] == LinkTo(userId, AdvertisedRoutes[i].0, AdvertisedRoutes[i].1);
      LinkToRoundTrip(userId, AdvertisedRoutes[i].0, AdvertisedRoutes[i].1);
    }
  }

  /**
   Every declared route that takes only the user id is asked for by exactly
   one link of each user, and every link asks for such a route.
   */
  lemma UserLinksMatchRoutes(userId: string)
    requires IsPathSegment(userId)
    ensures forall i :: 0 <= i < |UserLinks(userId)| ==>
              RouteOf(UserLinks(userId)[i]).Some?
              && IsUserRoute(RouteOf(UserLinks(userId)[i]).value.1.0, RouteOf(UserLinks(userId)[i]).value.1.1)
    ensures forall verb, res :: IsUserRoute(verb, res) ==>
              exists i :: 0 <= i < |UserLinks(userId)| && RouteOf(UserLinks(userId)[i]) == Some((userId, (verb, res)))
    ensures forall i, j :: 0 <= i < j < |UserLinks(userId)| ==>
              RouteOf(UserLinks(userId)[i]) != RouteOf(UserLinks(userId)[j])
  {
    AdvertisedRoutesAreServedRoutes();
    UserLinkRoutes(userId);
    var routes := seq(|UserLinks(userId)|, i requires 0 <= i < |UserLinks(userId)| => RouteOf(UserLinks(userId)[i]));
    assert forall i :: 0 <= i < |routes| ==> routes[i] == Some((userId, AdvertisedRoutes[i]));
    forall verb, res | IsUserRoute(verb, res)
      ensures exists i :: 0 <= i < |routes| && routes[i] == Some((userId, (verb, res)))
    {
      var i :| 0 <= i < |AdvertisedRoutes| && AdvertisedRoutes[i] == (verb, res);
      assert routes[i] == Some((userId, (verb, res)));
    }
  }
}

=== FILE: remote.dfy ===
/**
 What the Fitbit client library answers. The library itself (OAuth exchanges
 and signed HTTP calls) is not part of this model: its answers are inputs.
 */
module Remote {
  import opened Wrappers

  /** The token triple returned by an authorization-code or refresh exchange. */
  datatype Grant = Grant(userId: string, accessToken: string, refreshToken: string, expiresIn: int)

  /** Outcome of `client.getAccessToken` or `client.refreshAccessToken`. */
  datatype ExchangeReply = Granted(grant: Grant) | Denied(error: string)

  /** The body of a GET answer; `errors` is present when Fitbit reports a failure. */
  datatype Body = Body(errors: Option<string>, data: string)

  /** Outcome of `client.get`: an answer, or a rejected promise. */
  datatype FetchReply = Fetched(body: Body) | FetchFailed(error: string)
}

=== FILE: text.dfy ===
/**
 Decimal rendering and splitting of strings, as the JavaScript runtime does it
 when the gateway builds dates and URLs: `String(n)` for an integer, and the
 inverse parsing used to state round trips.
 */
module Text {
  import opened Wrappers

  predicate IsDigit(c: char) {
    '0' <= c <= '9'
  }

  predicate AllDigits(s: string) {
    forall i :: 0 <= i < |s| ==> IsDigit(s[i])
  }

  function DigitValue(c: char): (d: nat)
    requires IsDigit(c)
    ensures d < 10
  {
    c as int - '0' as int
  }

  function DigitChar(d: nat): (c: char)
    requires d < 10
    ensures IsDigit(c) && DigitValue(c) == d
  {
    ('0' as int + d) as char
  }

  /** Shortest decimal rendering of a natural number: no sign, no leading zero. */
  function NatToDecimal(n: nat): (s: string)
    ensures |s| > 0 && AllDigits(s)
    ensures s[0] == '0' ==> n == 0 && |s| == 1
  {
    if n < 10 then [DigitChar(n)] else NatToDecimal(n / 10) + [DigitChar(n % 10)]
  }

  /** JavaScript's `String(i)` for an integral Number. */
  function IntToDecimal(i: int): (s: string)
    ensures |s| > 0
    ensures 0 <= i ==> AllDigits(s)
    ensures i < 0 ==> s[0] == '-' && AllDigits(s[1..])
  {
    if i < 0 then "-" + NatToDecimal(-i) else NatToDecimal(i)
  }

  /** The value of a string of decimal digits (the empty string reads as 0). */
  function ParseNat(s: string): nat
    requires AllDigits(s)
    decreases |s|
  {
    if |s| == 0 then 0 else ParseNat(s[..|s| - 1]) * 10 + DigitValue(s[|s| - 1])
  }

  /** Reading back a rendered natural number gives the number. */
  lemma {:induction false} DecimalRoundTrip(n: nat)
    ensures ParseNat(NatToDecimal(n)) == n
  {
    var s := NatToDecimal(n);
    if n >= 10 {
      assert s[..|s| - 1] == NatToDecimal(n / 10);
      DecimalRoundTrip(n / 10);
    }
  }

  /** The text before the first `sep` and the text after it; None when `sep` does not occur. */
  function SplitAt(s: string, sep: char): (r: Option<(string, string)>)
    ensures r.None? <==> sep !in s
    ensures r.Some? ==> s == r.value.0 + [sep] + r.value.1 && sep !in r.value.0
  {
    if |s| == 0 then None
    else if s[0] == sep then Some(([], s[1..]))
    else match SplitAt(s[1..], sep)
      case None => None
      case Some((a, b)) => Some(([s[0]] + a, b))
  }

  /** Splitting at a separator that the first part does not contain recovers both parts. */
  lemma {:induction false} SplitAtJoin(a: string, b: string, sep: char)
    requires sep !in a
    ensures SplitAt(a + [sep] + b, sep) == Some((a, b))
  {
    if |a| > 0 {
      assert (a + [sep] + b)[1..] == a[1..] + [sep] + b;
      SplitAtJoin(a[1..], b, sep);
      assert [a[0]] + a[1..] == a;
    } else {
      assert a + [sep] + b == [sep] + b;
    }
  }

  lemma DigitsHaveNo(s: string, c: char)
    requires AllDigits(s) && !IsDigit(c)
    ensures c !in s
  {
  }
}

=== FILE: wrappers.dfy ===
/** Optional values, standing in for JavaScript's `undefined`. */
module Wrappers {

  datatype Option<+T> = None | Some(value: T)
}
